=== FILE: README.md ===
# slikad directory client: a Dafny model

This project models the core of slikad, a small Java library. It resolves a Windows account name into the user's display name and mail address by searching Active Directory over LDAP. The core is the class `ActiveDirectory` and the record `UserDetails` that it fills in. The model covers the following:

- **Search base** (`getDomainBase`). The domain controller's host name is split on dots, following Java `String.split` semantics. The result is rendered as `DC=<label>,DC=<label>,…`.
- **Search filter** (`getFilter`). The template as declared (line 42) does not work: `%$1s` is not a format specifier, so `String.format` throws an unchecked exception and every `getUserDetails` call fails at line 96, before any search is issued. The template also leaves its AND clause open. Both defects are modelled as written and proved under "## Findings". The filter that `Filter`, `Request` and `GetUserDetails` use is the corrected template: `%1$s` in both slots and one more closing `)`. With it, the account is placed verbatim, with no escaping, into the `samaccountname` and `givenName` items, and, for an account without parentheses, the result is a balanced RFC 4515 filter. An account holding a parenthesis can unbalance it, since nothing is escaped (`UnescapedAccountBreaksFilter`).
- **Connection properties** (the constructors). The provider URL is always `LDAP://<controller>`. The principal and credentials are added only when neither the username nor the password is blank.
- **Result mapping**. Only the first search result is read. Its `displayName` becomes the record's name, and its `mail` becomes the record's mail.
- **Lookup** (`getUserDetails`, with the corrected filter). Each search is answered by an abstract outcome: a communication failure, another naming failure, or the entries found. A communication failure leads to a reconnect and a full re-run of the lookup, with no bound on the number of rounds. Any other naming failure yields a record that holds only the account.
- **The `UserDetails` record**. The account is fixed at creation, and each setter changes only its own field.

Files: `wrappers.dfy` (Option), `java_strings.dfy` (the Java and commons-lang string functions used), `formatter.dfy` (the part of `java.util.Formatter` that the filter template exercises), `search_base.dfy`, `parens.dfy` (parenthesis nesting), `filter_template.dfy`, `search_filter.dfy`, `user_details.dfy` and `active_directory.dfy`.

Three behaviours of the code are worth stating plainly, and the model keeps all three:
- A communication failure is retried by a recursive call with no bound on the number of rounds (`ActiveDirectory.java:114`).
- A failure to reconnect is only logged (`connect`, `ActiveDirectory.java:69-71`).
- `String.split` drops trailing empty host-name labels (`ActiveDirectory.java:126`).

## Model

Source paths are relative to the repository root.

| member | source | states |
|---|---|---|
| JavaStrings.Split | src/main/java/com/github/kpentchev/slikad/ActiveDirectory.java:126 | No label contains the dot. When the host contains a dot, the last label, if any, is not empty, because trailing empty labels are dropped. The lemma rows below pin the labels down completely. |
| JavaStrings.SplitJoin | src/main/java/com/github/kpentchev/slikad/ActiveDirectory.java:126 | Joined back with dots, the labels give the host name without its trailing dots. |
| JavaStrings.SplitShape | src/main/java/com/github/kpentchev/slikad/ActiveDirectory.java:126 | The split yields no label exactly when the host is a non-empty run of dots. Otherwise it yields one label more than the dots left after stripping trailing dots. |
| JavaStrings.JoinSplit | src/main/java/com/github/kpentchev/slikad/ActiveDirectory.java:126 | Splitting the dot-join of dot-free labels gives the labels back, provided the last of several labels is non-empty. |
| JavaStrings.IsWhitespace | src/main/java/com/github/kpentchev/slikad/ActiveDirectory.java:56 | The code-point table agrees with the documented definition of `Character.isWhitespace`: a space, line or paragraph separator that is not a no-break space, or one of the controls U+0009-U+000D and U+001C-U+001F. |
| JavaStrings.IsBlank | src/main/java/com/github/kpentchev/slikad/ActiveDirectory.java:56 | `isBlank` holds exactly for null, or for a string in which every character is Java whitespace. |
| JavaStrings.Join | src/main/java/com/github/kpentchev/slikad/ActiveDirectory.java:129 | The empty label array joins to the empty string, which is why an all-dots host gives the bare `DC=`. A single label joins to itself, and the first label always opens the result. JoinSnoc, SplitJoin, JoinSplit and DomainBase's component postcondition pin down the rest. |
| SearchBase.DomainBase | src/main/java/com/github/kpentchev/slikad/ActiveDirectory.java:125-131 | The base is a comma-separated list of exactly one `DC=<label>` component per label, in host order. A host made only of dots gives the bare `DC=`. |
| SearchBase.LabelsOfHost | src/main/java/com/github/kpentchev/slikad/ActiveDirectory.java:126 | The labels rebuild the host without its trailing dots. When there is at least one label, their number is the number of remaining dots plus one. A host without a dot is a single label. |
| SearchBase.DomainBaseOfLabels | src/main/java/com/github/kpentchev/slikad/ActiveDirectory.java:125-130 | For a host written as dot-joined labels, the labels are recovered and the base is `DC=` followed by the labels joined with `,DC=`. |
| SearchBase.ThreeLabelHost | src/main/java/com/github/kpentchev/slikad/ActiveDirectory.java:125-130 | `a.b.c` gives `DC=a,DC=b,DC=c`, for example `corp.example.com` gives `DC=corp,DC=example,DC=com`. |
| SearchBase.TwoLabelHost | src/main/java/com/github/kpentchev/slikad/ActiveDirectory.java:125-130 | `a.b` gives `DC=a,DC=b`, for example `example.com` gives `DC=example,DC=com`. |
| SearchBase.SingleLabelHost | src/main/java/com/github/kpentchev/slikad/ActiveDirectory.java:125-130 | A host with no dot gives the single component `DC=<host>`. |
| SearchBase.TrailingDotHost | src/main/java/com/github/kpentchev/slikad/ActiveDirectory.java:125-130 | A trailing dot is dropped: `a.b.` gives `DC=a,DC=b`. |
| SearchBase.EmptyInteriorLabel | src/main/java/com/github/kpentchev/slikad/ActiveDirectory.java:125-130 | An empty interior label is kept: `a..b` gives `DC=a,DC=,DC=b`. |
| Formatter.Format | src/main/java/com/github/kpentchev/slikad/ActiveDirectory.java:122 | `String.format` over literal text, `%%`, `%1$s` and the rejected `%$` and trailing `%`. Its behaviour is stated by the five lemma rows that follow. |
| Formatter.FormatLiteral | src/main/java/com/github/kpentchev/slikad/ActiveDirectory.java:122 | Template text without `%` is copied unchanged in front of the rest of the output. |
| Formatter.FormatIndexedString | src/main/java/com/github/kpentchev/slikad/ActiveDirectory.java:122 | A `%1$s` specifier is replaced by the argument. |
| Formatter.FormatRejectsPercentDollar | src/main/java/com/github/kpentchev/slikad/ActiveDirectory.java:122 | A `%$` after `%`-free text makes the whole format call fail with an unknown-conversion error for `$`, whatever follows it. |
| Formatter.FormatPercentPercent | src/main/java/com/github/kpentchev/slikad/ActiveDirectory.java:122 | `%%` is replaced by one percent sign. |
| Formatter.FormatRejectsTrailingPercent | src/main/java/com/github/kpentchev/slikad/ActiveDirectory.java:122 | A `%` ending the template, after `%`-free text, makes the format call fail with an unknown-conversion error for `%`. |
| SearchFilter.Filter | src/main/java/com/github/kpentchev/slikad/ActiveDirectory.java:121-123 | The filter is the AND of the Person category item, the User class item, and an OR of `samaccountname=<account>` and `givenName=<account>`. The account appears verbatim in both items. |
| SearchFilter.FormatFilter | src/main/java/com/github/kpentchev/slikad/ActiveDirectory.java:121-123 | Formatting the corrected template with the account succeeds and gives exactly that filter. |
| SearchFilter.FilterRoundTrip | src/main/java/com/github/kpentchev/slikad/ActiveDirectory.java:121-123 | The account can be read back from the first account item of its filter. |
| SearchFilter.FilterInjective | src/main/java/com/github/kpentchev/slikad/ActiveDirectory.java:121-123 | Two accounts give the same filter if and only if they are equal. |
| SearchFilter.AsWrittenTemplateRejected | src/main/java/com/github/kpentchev/slikad/ActiveDirectory.java:42 | The template as declared, with `%$1s`, is rejected by the formatter for every account. |
| SearchFilter.AsWrittenFilterUnbalanced | src/main/java/com/github/kpentchev/slikad/ActiveDirectory.java:42 | The declared template, with its single closing `)` and a balanced account in both slots, ends one level deep: its AND clause is never closed. |
| SearchFilter.FilterBalanced | src/main/java/com/github/kpentchev/slikad/ActiveDirectory.java:42 | The corrected template, filled with a balanced account, gives a balanced filter. |
| SearchFilter.UnescapedAccountBreaksFilter | src/main/java/com/github/kpentchev/slikad/ActiveDirectory.java:121-123 | No escaping takes place: the account `)` makes the filter unbalanced. |
| Users.New | src/main/java/com/github/kpentchev/slikad/UserDetails.java:14-16 | A new record holds the given account, with name and mail unset. |
| Users.SetName | src/main/java/com/github/kpentchev/slikad/UserDetails.java:22-24 | Only the name changes: it becomes the given value. Account and mail are kept. |
| Users.SetMail | src/main/java/com/github/kpentchev/slikad/UserDetails.java:34-36 | Only the mail changes: it becomes the given value. Account and name are kept. |
| Users.GettersReturnLatest | src/main/java/com/github/kpentchev/slikad/UserDetails.java:18-36 | After any sequence of setter calls, the account is unchanged. Name and mail are the values most recently set, or the earlier values if never set. |
| Users.NewRecordGetters | src/main/java/com/github/kpentchev/slikad/UserDetails.java:11-32 | On a new record, the account getter always returns the constructor argument. Name and mail stay unset until set. |
| ActiveDirectory.ConnectionProperties | src/main/java/com/github/kpentchev/slikad/ActiveDirectory.java:50-59 | The properties always contain the LDAP context factory and the provider URL `LDAP://<controller>`. Principal and credentials are present, exactly as given, if and only if neither username nor password is blank. No other property is set. |
| ActiveDirectory.CredentialsIffVisible | src/main/java/com/github/kpentchev/slikad/ActiveDirectory.java:56-59 | Credentials are sent if and only if both the username and the password are non-null and each holds a character that is not whitespace. |
| ActiveDirectory.Create | src/main/java/com/github/kpentchev/slikad/ActiveDirectory.java:48-60 | The client keeps the controller and those properties, and has connected once. |
| ActiveDirectory.CreateAnonymous | src/main/java/com/github/kpentchev/slikad/ActiveDirectory.java:44-46 | The one-argument constructor is the three-argument one with null username and password. It never sends credentials. |
| ActiveDirectory.Reconnect | src/main/java/com/github/kpentchev/slikad/ActiveDirectory.java:66-72 | A reconnect reuses the same controller and properties, and adds one connection. |
| ActiveDirectory.Request | src/main/java/com/github/kpentchev/slikad/ActiveDirectory.java:95-97 | The search uses the controller's domain base, the account filter, subtree scope and the four returned attributes. |
| ActiveDirectory.MapFirstResult | src/main/java/com/github/kpentchev/slikad/ActiveDirectory.java:98-110 | With no result, the record is the bare record. Otherwise, name and mail are the first result's `displayName` and `mail`, and each is unset if that result lacks the attribute. The account is always the argument. |
| ActiveDirectory.OnlyFirstResultRead | src/main/java/com/github/kpentchev/slikad/ActiveDirectory.java:98-101 | Results after the first have no effect on the record. |
| ActiveDirectory.OtherAttributesIgnored | src/main/java/com/github/kpentchev/slikad/ActiveDirectory.java:101-109 | First results that agree on `displayName` and `mail` give the same record. |
| ActiveDirectory.Answer | src/main/java/com/github/kpentchev/slikad/ActiveDirectory.java:98-118 | A naming failure gives the bare record holding only the account. A result set gives the mapped first result. |
| ActiveDirectory.GetUserDetails | src/main/java/com/github/kpentchev/slikad/ActiveDirectory.java:92-119 | The same search is issued each round. Every round but the last ends in a communication failure, and the last does not. There is one reconnect per failed round, with controller and properties unchanged. The record is the answer to the last round and always holds the account asked for. |
| ActiveDirectory.RetryReturnsRerun | src/main/java/com/github/kpentchev/slikad/ActiveDirectory.java:111-114 | A leading communication failure adds one search and one reconnect. The returned record is the re-run's record, unchanged. |
| ActiveDirectory.RunIgnoresClient | src/main/java/com/github/kpentchev/slikad/ActiveDirectory.java:111-114 | The record and the number of searches do not depend on how often the client has already connected. |
| ActiveDirectory.LaterOutcomesIgnored | src/main/java/com/github/kpentchev/slikad/ActiveDirectory.java:95-118 | Outcomes after the first answered search never influence the lookup. |
| ActiveDirectory.UnboundedRetries | src/main/java/com/github/kpentchev/slikad/ActiveDirectory.java:111-114 | k communication failures followed by an answer give k reconnects, k + 1 searches and the record for that answer, for every k. |
| ActiveDirectory.LookupRecordShape | src/main/java/com/github/kpentchev/slikad/ActiveDirectory.java:93-118 | On every path the record holds the account. A naming failure gives the bare record, and an empty result leaves name and mail unset. |

## Left out

- The JNDI session: creating `InitialDirContext`, `search`, and iterating the `NamingEnumeration` are library calls over the network. They are replaced by a sequence of search outcomes, one per search.
- The effect of `connect` on the session, beyond counting that it happened. On a failed connect the old context is kept. If the constructor's own `connect` fails, the failure is only logged (lines 69-71) and the context stays null, so the first `search` throws an uncaught `NullPointerException`. The model does not track the context and does not model either case.
- `close`, which only delegates to the library and logs, and all logging.
- Concurrency: the client has one shared session field and does not synchronise access to it.
- ActiveDirectory.GetUserDetails: requires that some outcome in the sequence is not a communication failure. A run of failures that never ends cannot be written as a finite sequence of outcomes, so it is not modelled.
- ActiveDirectory.UnboundedRetries: holds for every k in the model. In the source, each failed round calls `getUserDetails` again (`ActiveDirectory.java:114`) and adds a stack frame. A long enough outage therefore ends in `StackOverflowError`, which the catch clauses at lines 111 and 115 do not catch, so it escapes the lookup. The model has no stack bound.
- Null domain controller and null account. They are modelled as non-null strings; only username and password are nullable (`Option`).
- Entries: an entry maps an attribute id to its first value. LDAP attribute ids are matched case-insensitively by the JNDI provider, but the model matches exact ids. Multi-valued attributes, non-string values (a `ClassCastException` in the source) and attributes without a value are not modelled.
- `SearchControls`: only the scope and the requested attributes are carried, as constants of the search request.
- Formatter.Format: carries no postcondition of its own. Its behaviour is stated by FormatLiteral, FormatIndexedString, FormatPercentPercent, FormatRejectsPercentDollar and FormatRejectsTrailingPercent, so that proofs about the filter do not have to re-check a postcondition against the long template literal.
- Formatter: only literal text, `%%`, `%1$s` and the rejected forms `%$` and a trailing `%` are modelled. Every other specifier is reported as `Unsupported`, which is outside what the client's templates use.
- JavaStrings.IsWhitespace follows Unicode 6.3 and later (Java 9 onwards), where U+180E is not a space separator. Under Java 8 it is one.
- SearchBase.ThreeLabelHost and its sibling example lemmas state the examples for any labels of that shape rather than for the literal host names. `corp.example.com` and `example.com` are instances.

## Findings

| source | as written | input that shows it | evidently intended | confidence | as-written member | corrected member |
|---|---|---|---|---|---|---|
| src/main/java/com/github/kpentchev/slikad/ActiveDirectory.java:42 | the account slots are written `%$1s` | any account, e.g. `jdoe`: `String.format` rejects the template with an unknown-conversion error for `$`. That is an unchecked exception, which `getUserDetails` does not catch, so no lookup returns. | `%1$s`, the account in both slots | high, not executed | SearchFilter.AsWrittenTemplateRejected | SearchFilter.Filter |
| src/main/java/com/github/kpentchev/slikad/ActiveDirectory.java:42 | the template ends in `))`, which closes the OR clause but not the AND clause | any account without parentheses, e.g. `jdoe`: the filter ends one level deep, which RFC 4515 does not allow | end the template in `)))` | high, not executed | SearchFilter.AsWrittenFilterUnbalanced | SearchFilter.FilterBalanced |

=== FILE: active_directory.dfy ===
/**
 * The directory client (`ActiveDirectory`): the connection properties it
 * is constructed with, the search it issues for an account, how it maps the
 * first search result into a user record, and how it reacts to search
 * failures.
 *
 * The directory itself is not modelled. Each search the client issues is
 * answered by the next element of a sequence of search outcomes: a
 * communication failure, any other naming failure, or the entries found.
 * Establishing a session (`connect`) is recorded only as a count.
 */
module ActiveDirectory {
  import opened Wrappers
  import JavaStrings
  import SearchBase
  import SearchFilter
  import opened Users

  /* ---------------------------------------------------------------------- */
  /* Connection properties                                                    */
  /* ---------------------------------------------------------------------- */

  /** The JNDI environment, property name to value. */
  type Properties = map<string, string>

  /** The context factory of the JDK's LDAP provider. */
  const ContextFactoryClass := "com.sun.jndi.ldap.LdapCtxFactory"

  /** Property names: the values of the `javax.naming.Context` constants
      `INITIAL_CONTEXT_FACTORY`, `PROVIDER_URL`, `SECURITY_PRINCIPAL` and
      `SECURITY_CREDENTIALS`. */
  const InitialContextFactory := "java.naming.factory.initial"
  const ProviderUrl := "java.naming.provider.url"
  const SecurityPrincipal := "java.naming.security.principal"
  const SecurityCredentials := "java.naming.security.credentials"

  /** The properties the constructor assembles: always the LDAP context
      factory and the provider URL "LDAP://" + controller; the principal and
      credentials only when neither username nor password is blank (null,
      empty or whitespace only), and then exactly as given. */
  function ConnectionProperties(domainController: string, username: Option<string>, password: Option<string>): (p: Properties)
    ensures InitialContextFactory in p && p[InitialContextFactory] == ContextFactoryClass
    ensures ProviderUrl in p && p[ProviderUrl] == "LDAP://" + domainController
    ensures SecurityPrincipal in p <==> !JavaStrings.IsBlank(username) && !JavaStrings.IsBlank(password)
    ensures SecurityCredentials in p <==> SecurityPrincipal in p
    ensures SecurityPrincipal in p ==> p[SecurityPrincipal] == username.value && p[SecurityCredentials] == password.value
    ensures p.Keys <= {InitialContextFactory, ProviderUrl, SecurityPrincipal, SecurityCredentials}
  {
    var anonymous := map[InitialContextFactory := ContextFactoryClass, ProviderUrl := "LDAP://" + domainController];
    if !JavaStrings.IsBlank(username) && !JavaStrings.IsBlank(password) then
      anonymous[SecurityPrincipal := username.value][SecurityCredentials := password.value]
    else
      anonymous
  }

  /** Credentials are sent exactly when both username and password are
      present and each holds a character that is not whitespace. */
  lemma CredentialsIffVisible(domainController: string, username: Option<string>, password: Option<string>)
    ensures SecurityPrincipal in ConnectionProperties(domainController, username, password)
        <==> && username.Some? && (exists i :: 0 <= i < |username.value| && !JavaStrings.IsWhitespace(username.value[i]))
             && password.Some? && (exists i :: 0 <= i < |password.value| && !JavaStrings.IsWhitespace(password.value[i]))
  {
  }

  /* ---------------------------------------------------------------------- */
  /* Client state                                                             */
  /* ---------------------------------------------------------------------- */

  /** The client: the controller and properties fixed at construction, and
      the number of times a session has been (re)established. */
  datatype Client = Client(domainController: string, properties: Properties, connects: nat)

  /** The three-argument constructor: assembles the properties and connects
      once. */
  function Create(domainController: string, username: Option<string>, password: Option<string>): (c: Client)
    ensures c.domainController == domainController
    ensures c.properties == ConnectionProperties(domainController, username, password)
    ensures c.connects == 1
  {
    Client(domainController, ConnectionProperties(domainController, username, password), 1)
  }

  /** The one-argument constructor passes null username and password, so the
      session is always unauthenticated. */
  function CreateAnonymous(domainController: string): (c: Client)
    ensures c == Create(domainController, None, None)
    ensures SecurityPrincipal !in c.properties && SecurityCredentials !in c.properties
    ensures c.properties[ProviderUrl] == "LDAP://" + domainController
  {
    Create(domainController, None, None)
  }

  /** `connect`: a new session from the same properties. */
  function Reconnect(c: Client): (r: Client)
    ensures r.domainController == c.domainController && r.properties == c.properties
    ensures r.connects == c.connects + 1
  {
    c.(connects := c.connects + 1)
  }

  /* ---------------------------------------------------------------------- */
  /* The search                                                               */
  /* ---------------------------------------------------------------------- */

  datatype Scope = SubtreeScope

  /** Attributes the search asks the directory to return. */
  const ReturnAttributes := ["givenName", "mail", "displayName", "samaccountname"]

  /** One search: base, filter, scope and requested attributes. */
  datatype SearchRequest = SearchRequest(base: string, filter: string, scope: Scope, attributes: seq<string>)

  /** The search issued for an account: below the controller's domain base,
      with the account filter, over the whole subtree. */
  function Request(c: Client, account: string): (q: SearchRequest)
    ensures q.base == SearchBase.DomainBase(c.domainController)
    ensures q.filter == SearchFilter.Filter(account)
    ensures q.scope == SubtreeScope && q.attributes == ReturnAttributes
  {
    SearchRequest(SearchBase.DomainBase(c.domainController), SearchFilter.Filter(account), SubtreeScope, ReturnAttributes)
  }

  /** A directory entry: attribute id to (first) value; an absent id is an
      attribute the entry does not carry. */
  type Entry = map<string, string>

  const DisplayNameAttribute := "displayName"
  const MailAttribute := "mail"

  /** The value of an attribute of an entry, if the entry carries it. */
  function Attribute(e: Entry, id: string): Option<string> {
    if id in e then Some(e[id]) else None
  }

  /** How a search ends. */
  datatype SearchOutcome =
    | CommunicationFailure       // `CommunicationException`
    | NamingFailure              // any other `NamingException`
    | Found(entries: seq<Entry>) // the results, in the order enumerated

  /* ---------------------------------------------------------------------- */
  /* Result mapping                                                           */
  /* ---------------------------------------------------------------------- */

  /** The record built from the search results: with no result, only the
      account; otherwise the first result's `displayName` as name and `mail`
      as mail, each only if that result carries it. */
  function MapFirstResult(account: string, entries: seq<Entry>): (u: UserDetails)
    ensures u.account == account
    ensures |entries| == 0 ==> u == New(account)
    ensures |entries| > 0 ==> u.name == Attribute(entries[0], DisplayNameAttribute)
    ensures |entries| > 0 ==> u.mail == Attribute(entries[0], MailAttribute)
  {
    var u := New(account);
    if |entries| == 0 then u
    else
      var attrs := entries[0];
      var named := if DisplayNameAttribute in attrs then SetName(u, Some(attrs[DisplayNameAttribute])) else u;
      if MailAttribute in attrs then SetMail(named, Some(attrs[MailAttribute])) else named
  }

  /** Only the first result is read: whatever follows it has no effect. */
  lemma OnlyFirstResultRead(account: string, first: Entry, rest: seq<Entry>, rest': seq<Entry>)
    ensures MapFirstResult(account, [first] + rest) == MapFirstResult(account, [first] + rest')
  {
  }

  /** Attributes other than `displayName` and `mail` have no effect. */
  lemma OtherAttributesIgnored(account: string, e: Entry, e': Entry, rest: seq<Entry>)
    requires Attribute(e, DisplayNameAttribute) == Attribute(e', DisplayNameAttribute)
    requires Attribute(e, MailAttribute) == Attribute(e', MailAttribute)
    ensures MapFirstResult(account, [e] + rest) == MapFirstResult(account, [e'] + rest)
  {
  }

  /* ---------------------------------------------------------------------- */
  /* Lookup                                                                   */
  /* ---------------------------------------------------------------------- */

  /** The record for a search that did not fail on communication: a naming
      failure is logged and leaves only the account; results are mapped. */
  function Answer(account: string, o: SearchOutcome): (u: UserDetails)
    requires !o.CommunicationFailure?
    ensures u.account == account
    ensures o.NamingFailure? ==> u == New(account)
    ensures o.Found? ==> u == MapFirstResult(account, o.entries)
  {
    match o
    case NamingFailure => New(account)
    case Found(entries) => MapFirstResult(account, entries)
  }

  /** Some search in the sequence does not fail on communication. */
  predicate EventuallyAnswered(outcomes: seq<SearchOutcome>) {
    exists i :: 0 <= i < |outcomes| && !outcomes[i].CommunicationFailure?
  }

  /** What a lookup yields: the record, the client afterwards, and the
      searches issued, in order. */
  datatype Lookup = Lookup(details: UserDetails, client: Client, searches: seq<SearchRequest>)

  /** `getUserDetails`: search; on a communication failure reconnect and run
      the whole lookup again, returning its result unchanged, with no bound
      on the number of rounds; on any other naming failure return the bare
      record; otherwise map the first result.

      The outcomes answer the searches in order. The lookup issues the same
      search each round, reconnects once per communication failure, stops at
      the first outcome that is not one, and returns the record for that
      outcome. */
  function GetUserDetails(c: Client, account: string, outcomes: seq<SearchOutcome>): (r: Lookup)
    requires EventuallyAnswered(outcomes)
    ensures r.details.account == account
    ensures 1 <= |r.searches| <= |outcomes|
    ensures forall i :: 0 <= i < |r.searches| ==> r.searches[i] == Request(c, account)
    ensures forall i :: 0 <= i < |r.searches| - 1 ==> outcomes[i].CommunicationFailure?
    ensures !outcomes[|r.searches| - 1].CommunicationFailure?
    ensures r.details == Answer(account, outcomes[|r.searches| - 1])
    ensures r.client.domainController == c.domainController && r.client.properties == c.properties
    ensures r.client.connects == c.connects + |r.searches| - 1
    decreases |outcomes|
  {
    var request := Request(c, account);
    match outcomes[0]
    case CommunicationFailure =>
      assert EventuallyAnswered(outcomes[1..]) by {
        var i :| 0 <= i < |outcomes| && !outcomes[i].CommunicationFailure?;
        assert outcomes[1..][i - 1] == outcomes[i];
      }
      var retry := GetUserDetails(Reconnect(c), account, outcomes[1..]);
      Lookup(retry.details, retry.client, [request] + retry.searches)
    case _ =>
      Lookup(Answer(account, outcomes[0]), c, [request])
  }

  /** A communication failure costs one reconnect and one more identical
      search, and the record is the re-run's record, unchanged. */
  lemma RetryReturnsRerun(c: Client, account: string, outcomes: seq<SearchOutcome>)
    requires EventuallyAnswered(outcomes)
    ensures EventuallyAnswered([CommunicationFailure] + outcomes)
    ensures GetUserDetails(c, account, [CommunicationFailure] + outcomes).details
         == GetUserDetails(c, account, outcomes).details
    ensures |GetUserDetails(c, account, [CommunicationFailure] + outcomes).searches|
         == |GetUserDetails(c, account, outcomes).searches| + 1
    ensures GetUserDetails(c, account, [CommunicationFailure] + outcomes).client.connects
         == GetUserDetails(c, account, outcomes).client.connects + 1
  {
    var i :| 0 <= i < |outcomes| && !outcomes[i].CommunicationFailure?;
    assert ([CommunicationFailure] + outcomes)[i + 1] == outcomes[i];
    assert ([CommunicationFailure] + outcomes)[1..] == outcomes;
    RunIgnoresClient(c, Reconnect(c), account, outcomes);
  }

  /** The record and the number of searches do not depend on the client the
      lookup starts from; the reconnect count is shifted by the difference. */
  lemma {:induction false} RunIgnoresClient(c: Client, c': Client, account: string, outcomes: seq<SearchOutcome>)
    requires EventuallyAnswered(outcomes)
    ensures GetUserDetails(c, account, outcomes).details == GetUserDetails(c', account, outcomes).details
    ensures |GetUserDetails(c, account, outcomes).searches| == |GetUserDetails(c', account, outcomes).searches|
  {
    var r, r' := GetUserDetails(c, account, outcomes), GetUserDetails(c', account, outcomes);
    SearchesCountFirstAnswer(outcomes, |r.searches|, |r'.searches|);
  }

  /** Two positions that are both the first non-communication outcome are the
      same position. */
  lemma SearchesCountFirstAnswer(outcomes: seq<SearchOutcome>, n: nat, n': nat)
    requires 1 <= n <= |outcomes| && 1 <= n' <= |outcomes|
    requires forall i :: 0 <= i < n - 1 ==> outcomes[i].CommunicationFailure?
    requires forall i :: 0 <= i < n' - 1 ==> outcomes[i].CommunicationFailure?
    requires !outcomes[n - 1].CommunicationFailure? && !outcomes[n' - 1].CommunicationFailure?
    ensures n == n'
  {
  }

  /** Outcomes after the answered search are never consumed. */
  lemma {:induction false} LaterOutcomesIgnored(c: Client, account: string, outcomes: seq<SearchOutcome>, later: seq<SearchOutcome>)
    requires EventuallyAnswered(outcomes)
    ensures EventuallyAnswered(outcomes + later)
    ensures GetUserDetails(c, account, outcomes + later) == GetUserDetails(c, account, outcomes)
    decreases |outcomes|
  {
    var i :| 0 <= i < |outcomes| && !outcomes[i].CommunicationFailure?;
    assert (outcomes + later)[i] == outcomes[i];
    assert (outcomes + later)[0] == outcomes[0];
    if outcomes[0].CommunicationFailure? {
      assert EventuallyAnswered(outcomes[1..]) by {
        assert outcomes[1..][i - 1] == outcomes[i];
      }
      assert (outcomes + later)[1..] == outcomes[1..] + later;
      LaterOutcomesIgnored(Reconnect(c), account, outcomes[1..], later);
    }
  }

  /** Any number of communication failures in a row is retried: k failures
      followed by an answer give k reconnects, k + 1 identical searches, and
      the record for that answer. */
  lemma UnboundedRetries(c: Client, account: string, k: nat, answer: SearchOutcome)
    requires !answer.CommunicationFailure?
    ensures EventuallyAnswered(seq(k, _ => CommunicationFailure) + [answer])
    ensures var r := GetUserDetails(c, account, seq(k, _ => CommunicationFailure) + [answer]);
            && |r.searches| == k + 1
            && r.client.connects == c.connects + k
            && r.details == Answer(account, answer)
  {
    var outcomes := seq(k, _ => CommunicationFailure) + [answer];
    assert outcomes[k] == answer;
    var r := GetUserDetails(c, account, outcomes);
    assert forall i :: 0 <= i < k ==> outcomes[i].CommunicationFailure?;
    SearchesCountFirstAnswer(outcomes, |r.searches|, k + 1);
  }

  /** Whatever the directory answers, the returned record holds the account
      asked for; a naming failure gives the bare record and an empty result
      leaves name and mail unset. */
  lemma LookupRecordShape(c: Client, account: string, outcomes: seq<SearchOutcome>)
    requires EventuallyAnswered(outcomes)
    ensures var r := GetUserDetails(c, account, outcomes);
            var o := outcomes[|r.searches| - 1];
            && r.details.account == account
            && (o.NamingFailure? ==> r.details == New(account))
            && (o == Found([]) ==> r.details.name.None? && r.details.mail.None?)
  {
  }
}

=== FILE: filter_template.dfy ===
/**
 * The account-filter template of the directory client, assembled from the
 * items of the string representation of search filters (RFC 4515,
 * section 3): `(attribute=value)` items inside `(&…)` and `(|…)` clauses.
 */
module FilterTemplate {

  /** An equality item `(attribute=value)`. */
  function Item(attribute: string, value: string): string {
    "(" + attribute + "=" + value + ")"
  }

  /** The fixed opening: the AND clause, the Person category and User class
      items, and the opening of the OR clause over the two account items. */
  const FilterHead := "(&" + Item("objectCategory", "Person") + Item("objectClass", "User") + "(|"

  /** The attributes whose value is the account. */
  const AccountAttribute := "samaccountname"
  const GivenNameAttribute := "givenName"

  /** The template with `specifier` in both account slots and `closing`
      after the second item. */
  function Template(specifier: string, closing: string): string {
    FilterHead + Item(AccountAttribute, specifier) + Item(GivenNameAttribute, specifier) + closing
  }

  /** The closing text as the client declares it: one ')', which closes the
      OR clause but not the AND clause. */
  const AsWrittenClosing := ")"

  /** The closing text that closes both clauses. */
  const IntendedClosing := "))"

  /** The template as the client declares it: `%$1s` in both account slots. */
  const FilterFormatAsWritten := Template("%$1s", AsWrittenClosing)

  /** The template as evidently intended: argument specifier `%1$s`, and the
      AND clause closed as well. */
  const FilterFormat := Template("%1$s", IntendedClosing)

  /** The fixed words hold no format specifier and no parenthesis. Each
      word is a lemma of its own, which keeps every proof about the
      literals small. */
  lemma CategoryWordsPlain()
    ensures '%' !in "objectCategory" && '(' !in "objectCategory" && ')' !in "objectCategory"
    ensures '%' !in "Person" && '(' !in "Person" && ')' !in "Person"
  {
  }

  lemma ClassWordsPlain()
    ensures '%' !in "objectClass" && '(' !in "objectClass" && ')' !in "objectClass"
    ensures '%' !in "User" && '(' !in "User" && ')' !in "User"
  {
  }

  lemma AccountAttributePlain()
    ensures '%' !in AccountAttribute && '(' !in AccountAttribute && ')' !in AccountAttribute
  {
  }

  lemma GivenNameAttributePlain()
    ensures '%' !in GivenNameAttribute && '(' !in GivenNameAttribute && ')' !in GivenNameAttribute
  {
  }

  lemma HeadFreeOfPercent()
    ensures '%' !in FilterHead
  {
    CategoryWordsPlain();
    ClassWordsPlain();
  }
}

=== FILE: formatter.dfy ===
/**
 * The part of `java.util.Formatter` (behind `String.format(template, arg)`)
 * that the account-filter templates exercise, with a single argument.
 *
 * Covered: literal text; `%1$s` (explicit argument index 1, string
 * conversion), replaced by the argument; `%%`, replaced by one percent sign;
 * a `%` directly followed by `$`, or a `%` ending the template, which the
 * Java parser rejects with `UnknownFormatConversionException` before any
 * output is produced. Every other specifier is outside this model and is
 * reported as `Unsupported`.
 */
module Formatter {

  datatype FormatError =
    | UnknownConversion(conversion: char)
    | Unsupported

  datatype Formatted = Text(text: string) | Rejected(error: FormatError)

  /** Puts `prefix` in front of a formatted text; a rejection stays one. */
  function Prepend(prefix: string, f: Formatted): Formatted {
    match f
    case Text(t) => Text(prefix + t)
    case Rejected(e) => Rejected(e)
  }

  /** `String.format(template, arg)` over the covered subset. */
  function Format(template: string, arg: string): Formatted
    decreases |template|
  {
    if |template| == 0 then Text("")
    else if template[0] != '%' then Prepend([template[0]], Format(template[1..], arg))
    else if |template| == 1 then Rejected(UnknownConversion('%'))
    else if template[1] == '%' then Prepend("%", Format(template[2..], arg))
    else if template[1] == '$' then Rejected(UnknownConversion('$'))
    else if |template| >= 4 && template[1..4] == "1$s" then Prepend(arg, Format(template[4..], arg))
    else Rejected(Unsupported)
  }

  /** Text free of `%` is copied unchanged in front of whatever follows. */
  lemma {:induction false} FormatLiteral(lit: string, rest: string, arg: string)
    requires '%' !in lit
    ensures Format(lit + rest, arg) == Prepend(lit, Format(rest, arg))
    decreases |lit|
  {
    if |lit| == 0 {
      assert lit + rest == rest;
    } else {
      assert (lit + rest)[0] == lit[0];
      assert (lit + rest)[1..] == lit[1..] + rest;
      assert lit == [lit[0]] + lit[1..];
      FormatLiteral(lit[1..], rest, arg);
      PrependTwice([lit[0]], lit[1..], Format(rest, arg));
    }
  }

  lemma PrependTwice(a: string, b: string, f: Formatted)
    ensures Prepend(a, Prepend(b, f)) == Prepend(a + b, f)
  {
    if f.Text? {
      assert a + (b + f.text) == (a + b) + f.text;
    }
  }

  /** A `%1$s` specifier is replaced by the argument. */
  lemma FormatIndexedString(rest: string, arg: string)
    ensures Format("%1$s" + rest, arg) == Prepend(arg, Format(rest, arg))
  {
    var t := "%1$s" + rest;
    assert t[0] == '%' && t[1] == '1';
    assert t[1..4] == "1$s";
    assert t[4..] == rest;
  }

  /** `%%` is replaced by one percent sign. */
  lemma FormatPercentPercent(rest: string, arg: string)
    ensures Format("%%" + rest, arg) == Prepend("%", Format(rest, arg))
  {
    var t := "%%" + rest;
    assert t[0] == '%' && t[1] == '%';
    assert t[2..] == rest;
  }

  /** A `%` ending the template, after `%`-free text, rejects the template as
      an unknown conversion `%`. */
  lemma FormatRejectsTrailingPercent(lit: string, arg: string)
    requires '%' !in lit
    ensures Format(lit + "%", arg) == Rejected(UnknownConversion('%'))
  {
    FormatLiteral(lit, "%", arg);
  }

  /** A `%$` anywhere after `%`-free text rejects the whole template, whatever
      follows it: the argument never reaches the output. */
  lemma FormatRejectsPercentDollar(lit: string, rest: string, arg: string)
    requires '%' !in lit
    ensures Format(lit + "%$" + rest, arg) == Rejected(UnknownConversion('$'))
  {
    assert lit + "%$" + rest == lit + ("%$" + rest);
    FormatLiteral(lit, "%$" + rest, arg);
    var t := "%$" + rest;
    assert t[0] == '%' && t[1] == '$';
  }
}

=== FILE: java_strings.dfy ===
/**
 * The pieces of the Java and Apache commons-lang string libraries that the
 * directory client relies on: `String.split` with a one-character literal
 * delimiter and the default limit, `StringUtils.join`, `StringUtils.isBlank`
 * and `Character.isWhitespace`.
 */
module JavaStrings {
  import opened Wrappers

  /* ---------------------------------------------------------------------- */
  /* Joining                                                                  */
  /* ---------------------------------------------------------------------- */

  /** `StringUtils.join(parts, sep)`: the parts in order, `sep` between
      neighbours; the empty array joins to the empty string, a single part to
      itself, and the first part always opens the result. */
  function Join(parts: seq<string>, sep: string): (r: string)
    ensures |parts| == 0 ==> r == ""
    ensures |parts| == 1 ==> r == parts[0]
    ensures |parts| >= 1 ==> parts[0] <= r
    decreases |parts|
  {
    if |parts| == 0 then ""
    else if |parts| == 1 then parts[0]
    else parts[0] + sep + Join(parts[1..], sep)
  }

  /** Appending one more part adds one separator and the part at the end. */
  lemma {:induction false} JoinSnoc(parts: seq<string>, last: string, sep: string)
    requires |parts| >= 1
    ensures Join(parts + [last], sep) == Join(parts, sep) + sep + last
    decreases |parts|
  {
    if |parts| == 1 {
      assert parts + [last] == [parts[0], last];
      assert (parts + [last])[1..] == [last];
    } else {
      assert (parts + [last])[1..] == parts[1..] + [last];
      JoinSnoc(parts[1..], last, sep);
    }
  }

  /* ---------------------------------------------------------------------- */
  /* Splitting                                                                */
  /* ---------------------------------------------------------------------- */

  /** Number of occurrences of `c` in `s`. */
  function Count(s: string, c: char): nat
    decreases |s|
  {
    if |s| == 0 then 0 else (if s[0] == c then 1 else 0) + Count(s[1..], c)
  }

  /** True when no part contains the delimiter. */
  predicate FreeOf(parts: seq<string>, c: char) {
    forall i :: 0 <= i < |parts| ==> c !in parts[i]
  }

  /** Every piece between delimiters, empty ones included: the split with a
      negative limit. */
  function SplitAll(s: string, c: char): (parts: seq<string>)
    ensures |parts| >= 1
    decreases |s|
  {
    if |s| == 0 then [""]
    else
      var rest := SplitAll(s[1..], c);
      if s[0] == c then [""] + rest
      else [[s[0]] + rest[0]] + rest[1..]
  }

  /** The pieces are delimiter-free, and joining them back with the delimiter
      gives the input again. */
  lemma {:induction false} SplitAllJoin(s: string, c: char)
    ensures FreeOf(SplitAll(s, c), c)
    ensures Join(SplitAll(s, c), [c]) == s
    decreases |s|
  {
    if |s| != 0 {
      var rest := SplitAll(s[1..], c);
      SplitAllJoin(s[1..], c);
      if s[0] == c {
        assert ([""] + rest)[1..] == rest;
      } else {
        var parts := SplitAll(s, c);
        assert parts[0] == [s[0]] + rest[0];
        assert parts[1..] == rest[1..];
        if |rest| > 1 {
          assert rest == [rest[0]] + rest[1..];
          assert Join(rest, [c]) == rest[0] + [c] + Join(rest[1..], [c]);
        }
        assert s == [s[0]] + s[1..];
      }
    }
  }

  /** A piece free of the delimiter, followed by the delimiter, becomes the
      first part; a delimiter-free string is a single part. */
  lemma {:induction false} SplitAllCons(w: string, rest: string, c: char)
    requires c !in w
    ensures SplitAll(w, c) == [w]
    ensures SplitAll(w + [c] + rest, c) == [w] + SplitAll(rest, c)
    decreases |w|
  {
    if |w| == 0 {
      assert w + [c] + rest == [c] + rest;
      assert ([c] + rest)[1..] == rest;
    } else {
      assert w == [w[0]] + w[1..];
      SplitAllCons(w[1..], rest, c);
      assert (w + [c] + rest)[1..] == w[1..] + [c] + rest;
    }
  }

  /** Splitting the join of delimiter-free pieces gives the pieces back. */
  lemma {:induction false} SplitAllOfJoin(parts: seq<string>, c: char)
    requires |parts| >= 1
    requires FreeOf(parts, c)
    ensures SplitAll(Join(parts, [c]), c) == parts
    decreases |parts|
  {
    assert c !in parts[0];
    SplitAllCons(parts[0], "", c);
    if |parts| > 1 {
      var rest := Join(parts[1..], [c]);
      assert FreeOf(parts[1..], c) by {
        forall i | 0 <= i < |parts[1..]| ensures c !in parts[1..][i] {
          assert parts[1..][i] == parts[i + 1];
        }
      }
      SplitAllOfJoin(parts[1..], c);
      assert Join(parts, [c]) == parts[0] + [c] + rest;
      SplitAllCons(parts[0], rest, c);
      assert parts == [parts[0]] + parts[1..];
    }
  }

  /** Removes the empty strings at the end of `parts`. */
  function DropTrailingEmpty(parts: seq<string>): (kept: seq<string>)
    ensures |kept| <= |parts|
    ensures kept == parts[..|kept|]
    ensures |kept| > 0 ==> kept[|kept| - 1] != ""
    ensures forall i :: |kept| <= i < |parts| ==> parts[i] == ""
    decreases |parts|
  {
    if |parts| == 0 then []
    else if parts[|parts| - 1] == "" then DropTrailingEmpty(parts[..|parts| - 1])
    else parts
  }

  /** `s.split("\\.")` with `c` the delimiter: when `c` does not occur the
      result is the input alone (the empty string included); otherwise every
      piece between delimiters, leading and interior empty pieces kept and
      trailing empty pieces dropped. No label contains the delimiter, and
      when the delimiter occurs the last label, if any, is not empty. */
  function Split(s: string, c: char): (labels: seq<string>)
    ensures FreeOf(labels, c)
    ensures c in s && labels != [] ==> labels[|labels| - 1] != ""
  {
    if c !in s then [s]
    else
      SplitAllJoin(s, c);
      DropTrailingEmpty(SplitAll(s, c))
  }

  /** `s` without the run of `c` at its end. */
  function StripTrailing(s: string, c: char): (t: string)
    ensures |t| <= |s| && t == s[..|t|]
    ensures |t| > 0 ==> t[|t| - 1] != c
    ensures forall i :: |t| <= i < |s| ==> s[i] == c
    decreases |s|
  {
    if |s| > 0 && s[|s| - 1] == c then StripTrailing(s[..|s| - 1], c) else s
  }

  /** Dropping trailing empty delimiter-free pieces strips the trailing
      delimiters of their join. */
  lemma {:induction false} DropTrailingJoin(parts: seq<string>, c: char)
    requires |parts| >= 1
    requires FreeOf(parts, c)
    ensures Join(DropTrailingEmpty(parts), [c]) == StripTrailing(Join(parts, [c]), c)
    decreases |parts|
  {
    var last := parts[|parts| - 1];
    if last == "" {
      if |parts| > 1 {
        var init := parts[..|parts| - 1];
        assert parts == init + [last];
        JoinSnoc(init, last, [c]);
        var j := Join(init, [c]);
        assert Join(parts, [c]) == j + [c];
        assert (j + [c])[..|j|] == j;
        DropTrailingJoin(init, c);
      }
    } else {
      JoinLastChar(parts, c);
    }
  }

  /** A join whose last piece is non-empty ends with that piece's last
      character, so it does not end with the delimiter. */
  lemma {:induction false} JoinLastChar(parts: seq<string>, c: char)
    requires |parts| >= 1
    requires FreeOf(parts, c)
    requires parts[|parts| - 1] != ""
    ensures var j := Join(parts, [c]); |j| > 0 && j[|j| - 1] != c
    decreases |parts|
  {
    var last := parts[|parts| - 1];
    assert last[|last| - 1] in last;
    if |parts| > 1 {
      var init := parts[..|parts| - 1];
      assert parts == init + [last];
      JoinSnoc(init, last, [c]);
    }
  }

  /** Round trip: joining the labels of `Split` with the delimiter gives the
      input back without its trailing delimiters. */
  lemma SplitJoin(s: string, c: char)
    ensures Join(Split(s, c), [c]) == StripTrailing(s, c)
  {
    if c in s {
      SplitAllJoin(s, c);
      DropTrailingJoin(SplitAll(s, c), c);
    }
  }

  /** Joining delimiter-free pieces inserts exactly one delimiter between
      neighbours. */
  lemma {:induction false} JoinCount(parts: seq<string>, c: char)
    requires |parts| >= 1
    requires FreeOf(parts, c)
    ensures Count(Join(parts, [c]), c) == |parts| - 1
    decreases |parts|
  {
    CountFree(parts[0], c);
    if |parts| > 1 {
      JoinCount(parts[1..], c);
      CountAppend(parts[0], [c], c);
      CountAppend(parts[0] + [c], Join(parts[1..], [c]), c);
    }
  }

  lemma {:induction false} CountFree(s: string, c: char)
    requires c !in s
    ensures Count(s, c) == 0
    decreases |s|
  {
    if |s| > 0 {
      assert s == [s[0]] + s[1..];
      CountFree(s[1..], c);
    }
  }

  lemma {:induction false} CountAppend(a: string, b: string, c: char)
    ensures Count(a + b, c) == Count(a, c) + Count(b, c)
    decreases |a|
  {
    if |a| > 0 {
      assert (a + b)[1..] == a[1..] + b;
      CountAppend(a[1..], b, c);
    } else {
      assert a + b == b;
    }
  }

  /** How many labels `Split` yields: none when the input is a non-empty run
      of delimiters only, otherwise one more than the delimiters left after
      stripping the trailing ones. */
  lemma {:induction false} SplitShape(s: string, c: char)
    ensures Split(s, c) == [] <==> c in s && StripTrailing(s, c) == ""
    ensures Split(s, c) != [] ==> |Split(s, c)| == Count(StripTrailing(s, c), c) + 1
  {
    var labels := Split(s, c);
    SplitJoin(s, c);
    if labels != [] {
      JoinCount(labels, c);
      if c in s {
        JoinLastChar(labels, c);
      }
    } else {
      assert c in s;
    }
  }

  /** The other round trip: splitting the dot-join of labels gives the
      labels back, provided none holds the delimiter and, when there are
      several, the last is not empty (a trailing empty label would be
      dropped). */
  lemma {:induction false} JoinSplit(parts: seq<string>, c: char)
    requires |parts| >= 1
    requires FreeOf(parts, c)
    requires |parts| > 1 ==> parts[|parts| - 1] != ""
    ensures Split(Join(parts, [c]), c) == parts
  {
    SplitAllOfJoin(parts, c);
    if |parts| == 1 {
      assert Join(parts, [c]) == parts[0];
    } else {
      assert c in Join(parts, [c]) by {
        assert Join(parts, [c]) == parts[0] + [c] + Join(parts[1..], [c]);
        assert Join(parts, [c])[|parts[0]|] == c;
      }
    }
  }

  /* ---------------------------------------------------------------------- */
  /* Blankness                                                                */
  /* ---------------------------------------------------------------------- */

  /** Unicode general category Zs, space separator (Unicode 6.3 and later). */
  predicate SpaceSeparator(u: int) {
    u == 0x20 || u == 0xA0 || u == 0x1680 || (0x2000 <= u <= 0x200A)
    || u == 0x202F || u == 0x205F || u == 0x3000
  }

  /** Unicode general categories Zl and Zp. */
  predicate LineOrParagraphSeparator(u: int) {
    u == 0x2028 || u == 0x2029
  }

  /** The no-break spaces U+00A0, U+2007 and U+202F. */
  predicate NoBreakSpace(u: int) {
    u == 0xA0 || u == 0x2007 || u == 0x202F
  }

  /** The controls HT, LF, VT, FF, CR and the separators FS, GS, RS, US. */
  predicate WhitespaceControl(u: int) {
    (0x09 <= u <= 0x0D) || (0x1C <= u <= 0x1F)
  }

  /** `Character.isWhitespace` as a table of code-point ranges. It agrees
      with the documented definition: a space, line or paragraph separator
      that is not a no-break space, or one of the whitespace controls. */
  function IsWhitespace(ch: char): (ws: bool)
    ensures ws <==> || ((SpaceSeparator(ch as int) || LineOrParagraphSeparator(ch as int)) && !NoBreakSpace(ch as int))
                    || WhitespaceControl(ch as int)
  {
    var u := ch as int;
    || (0x09 <= u <= 0x0D)
    || (0x1C <= u <= 0x20)
    || u == 0x1680
    || (0x2000 <= u <= 0x2006)
    || (0x2008 <= u <= 0x200A)
    || u == 0x2028 || u == 0x2029
    || u == 0x205F || u == 0x3000
  }

  /** `StringUtils.isBlank` scanning left to right: true for the empty
      string, false at the first character that is not whitespace. */
  function AllWhitespace(s: string): bool
    decreases |s|
  {
    |s| == 0 || (IsWhitespace(s[0]) && AllWhitespace(s[1..]))
  }

  /** `StringUtils.isBlank`: a value is blank exactly when it is null or none
      of its characters is anything but whitespace; in particular null and
      "" are blank. */
  function IsBlank(s: Option<string>): (blank: bool)
    ensures blank <==> s.None? || forall i :: 0 <= i < |s.value| ==> IsWhitespace(s.value[i])
  {
    if s.None? then true
    else
      AllWhitespaceEach(s.value);
      AllWhitespace(s.value)
  }

  lemma {:induction false} AllWhitespaceEach(s: string)
    ensures AllWhitespace(s) <==> forall i :: 0 <= i < |s| ==> IsWhitespace(s[i])
    decreases |s|
  {
    if |s| > 0 {
      AllWhitespaceEach(s[1..]);
      assert forall i :: 1 <= i < |s| ==> s[i] == s[1..][i - 1];
    }
  }
}

=== FILE: parens.dfy ===
/**
 * Parenthesis nesting of filter text: the shape the string representation
 * of search filters in RFC 4515 (section 3) gives every filter, each
 * component enclosed in a matching pair of parentheses.
 */
module Parens {
  import opened Wrappers

  /** Nesting depth after scanning `s` from depth `d`; None once a ')' has no
      matching '('. */
  function Depth(s: string, d: nat): Option<nat>
    decreases |s|
  {
    if |s| == 0 then Some(d)
    else if s[0] == '(' then Depth(s[1..], d + 1)
    else if s[0] == ')' then (if d == 0 then None else Depth(s[1..], d - 1))
    else Depth(s[1..], d)
  }

  /** Every ')' closes an earlier '(' and every '(' is closed: the shape the
      filter grammar of RFC 4515 (section 3) requires of a filter. */
  predicate Balanced(s: string) {
    Depth(s, 0) == Some(0)
  }

  lemma {:induction false} DepthAppend(a: string, b: string, d: nat)
    ensures Depth(a + b, d) == (match Depth(a, d) case None => None case Some(e) => Depth(b, e))
    decreases |a|
  {
    if |a| == 0 {
      assert a + b == b;
    } else {
      assert (a + b)[0] == a[0];
      assert (a + b)[1..] == a[1..] + b;
      if a[0] == '(' {
        DepthAppend(a[1..], b, d + 1);
      } else if a[0] == ')' {
        if d > 0 {
          DepthAppend(a[1..], b, d - 1);
        }
      } else {
        DepthAppend(a[1..], b, d);
      }
    }
  }

  /** Scanning from a deeper start shifts the final depth by the same amount. */
  lemma {:induction false} DepthShift(s: string, d: nat, k: nat, e: nat)
    requires Depth(s, d) == Some(e)
    ensures Depth(s, d + k) == Some(e + k)
    decreases |s|
  {
    if |s| > 0 {
      if s[0] == '(' {
        DepthShift(s[1..], d + 1, k, e);
      } else if s[0] == ')' {
        DepthShift(s[1..], d - 1, k, e);
      } else {
        DepthShift(s[1..], d, k, e);
      }
    }
  }

  /** Text without parentheses leaves the depth unchanged. */
  lemma {:induction false} DepthParenFree(w: string, d: nat)
    requires '(' !in w && ')' !in w
    ensures Depth(w, d) == Some(d)
    decreases |w|
  {
    if |w| > 0 {
      assert w == [w[0]] + w[1..];
      DepthParenFree(w[1..], d);
    }
  }
}

=== FILE: search_base.dfy ===
/**
 * The search base of the account lookup: the distinguished name built from
 * the domain controller's host name (`getDomainBase`).
 */
module SearchBase {
  import JavaStrings

  /** The host-name labels the base is built from. */
  function Labels(host: string): seq<string> {
    JavaStrings.Split(host, '.')
  }

  /** `getDomainBase`: "DC=" followed by the labels joined with ",DC=".
      The base is a comma-separated list of exactly one `DC=<label>`
      component per host-name label, in host-name order. A host made only of
      dots has no labels and yields the bare "DC=". */
  function DomainBase(host: string): (base: string)
    ensures Labels(host) != [] ==> base == JavaStrings.Join(Components(Labels(host)), ",")
    ensures Labels(host) == [] ==> base == "DC="
  {
    PrefixedJoin(Labels(host));
    "DC=" + JavaStrings.Join(Labels(host), ",DC=")
  }

  /** The relative names of a base, one `DC=<label>` per label, in order. */
  function Components(labels: seq<string>): (rdns: seq<string>)
    ensures |rdns| == |labels|
    ensures forall i :: 0 <= i < |labels| ==> rdns[i] == "DC=" + labels[i]
  {
    seq(|labels|, i requires 0 <= i < |labels| => "DC=" + labels[i])
  }

  lemma {:induction false} PrefixedJoin(labels: seq<string>)
    ensures labels != [] ==> "DC=" + JavaStrings.Join(labels, ",DC=") == JavaStrings.Join(Components(labels), ",")
    decreases |labels|
  {
    if |labels| > 1 {
      PrefixedJoin(labels[1..]);
      assert Components(labels)[1..] == Components(labels[1..]);
      var j := JavaStrings.Join(labels[1..], ",DC=");
      assert "DC=" + (labels[0] + ",DC=" + j) == ("DC=" + labels[0]) + "," + ("DC=" + j);
    }
  }

  /** The labels are the host name's dot-separated pieces: joined with dots
      they give the host back without trailing dots, none contains a dot,
      and their number is one more than the dots left after stripping the
      trailing ones (none at all for a host of dots only). A host without a
      dot is a single label. */
  lemma LabelsOfHost(host: string)
    ensures JavaStrings.Join(Labels(host), ".") == JavaStrings.StripTrailing(host, '.')
    ensures forall i :: 0 <= i < |Labels(host)| ==> '.' !in Labels(host)[i]
    ensures Labels(host) == [] <==> '.' in host && JavaStrings.StripTrailing(host, '.') == ""
    ensures Labels(host) != [] ==> |Labels(host)| == JavaStrings.Count(JavaStrings.StripTrailing(host, '.'), '.') + 1
    ensures '.' !in host ==> Labels(host) == [host]
  {
    JavaStrings.SplitJoin(host, '.');
    JavaStrings.SplitShape(host, '.');
  }

  /** The base of a host given as labels joined with dots: one `DC=`
      component per label, provided no label holds a dot and, when there
      are several, the last is not empty. */
  lemma {:induction false} DomainBaseOfLabels(labels: seq<string>)
    requires |labels| >= 1
    requires JavaStrings.FreeOf(labels, '.')
    requires |labels| > 1 ==> labels[|labels| - 1] != ""
    ensures Labels(JavaStrings.Join(labels, ".")) == labels
    ensures DomainBase(JavaStrings.Join(labels, ".")) == "DC=" + JavaStrings.Join(labels, ",DC=")
  {
    JavaStrings.JoinSplit(labels, '.');
  }

  /** Three labels, as in "corp.example.com" giving
      "DC=corp,DC=example,DC=com". */
  lemma ThreeLabelHost(a: string, b: string, c: string)
    requires '.' !in a && '.' !in b && '.' !in c && c != ""
    ensures DomainBase(a + "." + b + "." + c) == "DC=" + a + ",DC=" + b + ",DC=" + c
  {
    var labels := [a, b, c];
    JoinThree(a, b, c, ".");
    JoinThree(a, b, c, ",DC=");
    DomainBaseOfLabels(labels);
  }

  lemma JoinThree(a: string, b: string, c: string, sep: string)
    ensures JavaStrings.Join([a, b, c], sep) == a + sep + b + sep + c
  {
    assert [a, b, c][1..] == [b, c];
    assert [b, c][1..] == [c];
    assert JavaStrings.Join([b, c], sep) == b + sep + c;
  }

  /** Two labels, as in "example.com" giving "DC=example,DC=com". */
  lemma TwoLabelHost(a: string, b: string)
    requires '.' !in a && '.' !in b && b != ""
    ensures DomainBase(a + "." + b) == "DC=" + a + ",DC=" + b
  {
    var labels := [a, b];
    assert labels[1..] == [b];
    DomainBaseOfLabels(labels);
  }

  /** A host without a dot is a single component. */
  lemma SingleLabelHost(host: string)
    requires '.' !in host
    ensures DomainBase(host) == "DC=" + host
  {
    assert Labels(host) == [host];
  }

  /** A trailing dot is dropped: "example.com." gives "DC=example,DC=com". */
  lemma TrailingDotHost(a: string, b: string)
    requires '.' !in a && '.' !in b && b != ""
    ensures DomainBase(a + "." + b + ".") == "DC=" + a + ",DC=" + b
  {
    var host := a + "." + b + ".";
    JavaStrings.SplitAllCons(b, "", '.');
    JavaStrings.SplitAllCons("", "", '.');
    JavaStrings.SplitAllCons(a, b + ".", '.');
    assert host == a + "." + (b + "." + "");
    assert b + "." == b + "." + "";
    assert JavaStrings.SplitAll(host, '.') == [a, b, ""];
    assert host[|a|] == '.';
    assert [a, b, ""][..2] == [a, b];
    assert JavaStrings.DropTrailingEmpty([a, b]) == [a, b];
    assert JavaStrings.DropTrailingEmpty([a, b, ""]) == [a, b];
    assert Labels(host) == [a, b];
    assert [a, b][1..] == [b];
    assert JavaStrings.Join([a, b], ",DC=") == a + ",DC=" + b;
  }

  /** An empty interior label is kept as an empty component: "a..b" gives
      "DC=a,DC=,DC=b". */
  lemma EmptyInteriorLabel(a: string, b: string)
    requires '.' !in a && '.' !in b && b != ""
    ensures DomainBase(a + ".." + b) == "DC=" + a + ",DC=,DC=" + b
  {
    ThreeLabelHost(a, "", b);
    assert a + ".." + b == a + "." + "" + "." + b;
    assert "DC=" + a + ",DC=" + "" + ",DC=" + b == "DC=" + a + ",DC=,DC=" + b;
  }
}

=== FILE: search_filter.dfy ===
/**
 * The search filter of the account lookup (`getFilter`): the account name
 * substituted into the filter template.
 */
module SearchFilter {
  import opened Wrappers
  import Formatter
  import opened FilterTemplate
  import opened Parens

  /** `getFilter`, with the corrected template: the account goes verbatim,
      without any escaping, into both the `samaccountname` and the
      `givenName` item, the category and class items are unchanged, and the
      OR and AND clauses are closed. */
  function Filter(account: string): (f: string)
    ensures f == Template(account, IntendedClosing)
  {
    FormatFilter(account);
    Formatter.Format(FilterFormat, account).text
  }

  /** An item whose value is the `%1$s` specifier formats to the item holding
      the argument. */
  lemma FormatItem(attribute: string, rest: string, account: string)
    requires '%' !in attribute
    ensures Formatter.Format(Item(attribute, "%1$s") + rest, account)
         == Formatter.Prepend(Item(attribute, account), Formatter.Format(rest, account))
  {
    var open := "(" + attribute + "=";
    assert '%' !in open;
    assert Item(attribute, "%1$s") + rest == open + ("%1$s" + (")" + rest));
    Formatter.FormatLiteral(open, "%1$s" + (")" + rest), account);
    Formatter.FormatIndexedString(")" + rest, account);
    Formatter.FormatLiteral(")", rest, account);
    Formatter.PrependTwice(account, ")", Formatter.Format(rest, account));
    Formatter.PrependTwice(open, account + ")", Formatter.Format(rest, account));
    assert open + (account + ")") == Item(attribute, account);
  }

  lemma FormatFilter(account: string)
    ensures Formatter.Format(FilterFormat, account)
         == Formatter.Text(Template(account, IntendedClosing))
  {
    AccountAttributePlain();
    GivenNameAttributePlain();
    HeadFreeOfPercent();
    FormatFilled(FilterHead, AccountAttribute, GivenNameAttribute, IntendedClosing, account);
  }

  /** Both `%1$s` slots of a template whose fixed text is free of `%` are
      filled with the account. */
  lemma FormatFilled(head: string, first: string, second: string, closing: string, account: string)
    requires '%' !in head && '%' !in first && '%' !in second && '%' !in closing
    ensures Formatter.Format(head + Item(first, "%1$s") + Item(second, "%1$s") + closing, account)
         == Formatter.Text(head + Item(first, account) + Item(second, account) + closing)
  {
    var f, g := Item(first, "%1$s"), Item(second, "%1$s");
    assert head + f + g + closing == head + (f + (g + closing));
    Formatter.FormatLiteral(head, f + (g + closing), account);
    FormatItem(first, g + closing, account);
    FormatItem(second, closing, account);
    Formatter.FormatLiteral(closing, "", account);
    assert closing + "" == closing;
    var a, b := Item(first, account), Item(second, account);
    assert head + (a + (b + closing)) == head + a + b + closing;
  }

  /** The template as written is rejected by the formatter for every account:
      `%$1s` is not a format specifier, so `String.format` throws an unchecked
      exception and no filter is produced. */
  lemma AsWrittenTemplateRejected(account: string)
    ensures Formatter.Format(FilterFormatAsWritten, account)
         == Formatter.Rejected(Formatter.UnknownConversion('$'))
  {
    AccountAttributePlain();
    HeadFreeOfPercent();
    var lit := FilterHead + "(" + AccountAttribute + "=";
    assert '%' !in lit;
    var rest := "1s)" + Item(GivenNameAttribute, "%$1s") + ")";
    assert FilterFormatAsWritten == lit + "%$" + rest;
    Formatter.FormatRejectsPercentDollar(lit, rest, account);
  }

  /* ---------------------------------------------------------------------- */
  /* Reading the account back                                                 */
  /* ---------------------------------------------------------------------- */

  /** Length of the filter text that does not depend on the account. */
  const FixedLength := |FilterHead| + |Item(AccountAttribute, "")| + |Item(GivenNameAttribute, "")| + 2

  /** The value of the first account item of a filter. */
  function SlotAccount(f: string): string {
    var n := |f| - FixedLength;
    var start := |FilterHead| + |AccountAttribute| + 2;
    if n < 0 || n % 2 != 0 then "" else f[start..start + n / 2]
  }

  /** The account can be read back from its filter. */
  lemma FilterRoundTrip(account: string)
    ensures SlotAccount(Filter(account)) == account
  {
    var f := Filter(account);
    var start := |FilterHead| + |AccountAttribute| + 2;
    assert f == (FilterHead + "(" + AccountAttribute + "=") + account + (")" + Item(GivenNameAttribute, account) + "))");
    assert |f| == FixedLength + 2 * |account|;
    assert f[start..start + |account|] == account;
  }

  /** Distinct accounts give distinct filters. */
  lemma FilterInjective(a: string, b: string)
    ensures Filter(a) == Filter(b) <==> a == b
  {
    FilterRoundTrip(a);
    FilterRoundTrip(b);
  }

  /* ---------------------------------------------------------------------- */
  /* Parenthesis balance                                                      */
  /* ---------------------------------------------------------------------- */

  /** An item with a parenthesis-free attribute and a balanced value is
      balanced. */
  lemma DepthItem(attribute: string, value: string, d: nat)
    requires '(' !in attribute && ')' !in attribute
    requires Balanced(value)
    ensures Depth(Item(attribute, value), d) == Some(d)
  {
    var open := "(" + attribute + "=";
    assert Item(attribute, value) == open + (value + ")");
    DepthAppend(open, value + ")", d);
    assert open == "(" + (attribute + "=");
    DepthAppend("(", attribute + "=", d);
    DepthAppend(attribute, "=", d + 1);
    DepthParenFree(attribute, d + 1);
    DepthAppend(value, ")", d + 1);
    DepthShift(value, 0, d + 1, 0);
  }

  /** The head opens two clauses. */
  lemma HeadDepth()
    ensures Depth(FilterHead, 0) == Some(2)
  {
    CategoryWordsPlain();
    ClassWordsPlain();
    assert Balanced("Person") by { DepthParenFree("Person", 0); }
    assert Balanced("User") by { DepthParenFree("User", 0); }
    var c1, c2 := Item("objectCategory", "Person"), Item("objectClass", "User");
    DepthItem("objectCategory", "Person", 1);
    DepthItem("objectClass", "User", 1);
    DepthAppend("(&", c1, 0);
    DepthAppend("(&" + c1, c2, 0);
    DepthAppend("(&" + c1 + c2, "(|", 0);
  }

  /** Both account items are balanced for a balanced account, so the head and
      items end two levels deep. */
  lemma ItemsDepth(account: string)
    requires Balanced(account)
    ensures Depth(FilterHead + Item(AccountAttribute, account) + Item(GivenNameAttribute, account), 0) == Some(2)
  {
    AccountAttributePlain();
    GivenNameAttributePlain();
    HeadDepth();
    var a, g := Item(AccountAttribute, account), Item(GivenNameAttribute, account);
    DepthItem(AccountAttribute, account, 2);
    DepthItem(GivenNameAttribute, account, 2);
    DepthAppend(FilterHead, a, 0);
    DepthAppend(FilterHead + a, g, 0);
  }

  /** The template as written, even with the account in its slots in place
      of `%$1s`, leaves the AND clause open for every balanced account. */
  lemma AsWrittenFilterUnbalanced(account: string)
    requires Balanced(account)
    ensures Depth(Template(account, AsWrittenClosing), 0) == Some(1)
    ensures !Balanced(Template(account, AsWrittenClosing))
  {
    ItemsDepth(account);
    DepthAppend(FilterHead + Item(AccountAttribute, account) + Item(GivenNameAttribute, account), AsWrittenClosing, 0);
  }

  /** With the corrected template, every balanced account (in particular one
      without parentheses) gives a balanced filter. */
  lemma FilterBalanced(account: string)
    requires Balanced(account)
    ensures Balanced(Filter(account))
  {
    ItemsDepth(account);
    DepthAppend(FilterHead + Item(AccountAttribute, account) + Item(GivenNameAttribute, account), "))", 0);
  }

  /** An item whose value is a lone ')' closes one level more than it opens. */
  lemma DepthItemClosing(attribute: string, d: nat)
    requires '(' !in attribute && ')' !in attribute
    ensures Depth(Item(attribute, ")"), d + 1) == Some(d)
  {
    var open := "(" + attribute + "=";
    assert Item(attribute, ")") == open + "))";
    assert open == "(" + (attribute + "=");
    DepthAppend("(", attribute + "=", d + 1);
    DepthAppend(attribute, "=", d + 2);
    DepthParenFree(attribute, d + 2);
    DepthAppend(open, "))", d + 1);
  }

  /** No escaping takes place: an account holding a parenthesis reaches the
      filter as is and unbalances it. */
  lemma UnescapedAccountBreaksFilter()
    ensures !Balanced(Filter(")"))
  {
    AccountAttributePlain();
    GivenNameAttributePlain();
    HeadDepth();
    var a, g := Item(AccountAttribute, ")"), Item(GivenNameAttribute, ")");
    DepthItemClosing(AccountAttribute, 1);
    DepthItemClosing(GivenNameAttribute, 0);
    DepthAppend(FilterHead, a, 0);
    DepthAppend(FilterHead + a, g, 0);
    DepthAppend(FilterHead + a + g, "))", 0);
  }
}

=== FILE: user_details.dfy ===
/**
 * The record a lookup fills in: the account it was asked for, and the
 * display name and mail address found for it, each unset (null) until set.
 * The datatype's fields are the record's getters.
 */
module Users {
  import opened Wrappers

  datatype UserDetails = UserDetails(account: string, name: Option<string>, mail: Option<string>)

  /** A new record holds the account, with name and mail unset. */
  function New(account: string): (u: UserDetails)
    ensures u.account == account
    ensures u.name.None? && u.mail.None?
  {
    UserDetails(account, None, None)
  }

  /** `setName`: replaces the name (possibly by null) and nothing else. */
  function SetName(u: UserDetails, name: Option<string>): (r: UserDetails)
    ensures r.name == name
    ensures r.account == u.account && r.mail == u.mail
  {
    u.(name := name)
  }

  /** `setMail`: replaces the mail (possibly by null) and nothing else. */
  function SetMail(u: UserDetails, mail: Option<string>): (r: UserDetails)
    ensures r.mail == mail
    ensures r.account == u.account && r.name == u.name
  {
    u.(mail := mail)
  }

  /** A setter call on a record. */
  datatype Update = SetNameTo(name: Option<string>) | SetMailTo(mail: Option<string>)

  /** The record after the updates, applied first to last. */
  function Apply(u: UserDetails, updates: seq<Update>): UserDetails
    decreases |updates|
  {
    if |updates| == 0 then u
    else
      var next := match updates[0]
        case SetNameTo(n) => SetName(u, n)
        case SetMailTo(m) => SetMail(u, m);
      Apply(next, updates[1..])
  }

  /** The value of the last `SetNameTo` among the updates, or `current` if
      there is none. */
  function LatestName(updates: seq<Update>, current: Option<string>): Option<string>
    decreases |updates|
  {
    if |updates| == 0 then current
    else if updates[|updates| - 1].SetNameTo? then updates[|updates| - 1].name
    else LatestName(updates[..|updates| - 1], current)
  }

  /** The value of the last `SetMailTo` among the updates, or `current` if
      there is none. */
  function LatestMail(updates: seq<Update>, current: Option<string>): Option<string>
    decreases |updates|
  {
    if |updates| == 0 then current
    else if updates[|updates| - 1].SetMailTo? then updates[|updates| - 1].mail
    else LatestMail(updates[..|updates| - 1], current)
  }

  /** After any sequence of setter calls the account is the one the record
      was created with, and each getter returns the value most recently set,
      or the earlier value when that field was never set. */
  lemma {:induction false} GettersReturnLatest(u: UserDetails, updates: seq<Update>)
    ensures Apply(u, updates).account == u.account
    ensures Apply(u, updates).name == LatestName(updates, u.name)
    ensures Apply(u, updates).mail == LatestMail(updates, u.mail)
    decreases |updates|
  {
    if |updates| > 0 {
      var init, last := updates[..|updates| - 1], updates[|updates| - 1];
      assert updates == init + [last];
      ApplySnoc(u, init, last);
      GettersReturnLatest(u, init);
    }
  }

  /** Applying one more update acts on the record the others produced. */
  lemma {:induction false} ApplySnoc(u: UserDetails, updates: seq<Update>, last: Update)
    ensures Apply(u, updates + [last]) == Apply(Apply(u, updates), [last])
    decreases |updates|
  {
    if |updates| > 0 {
      assert (updates + [last])[1..] == updates[1..] + [last];
      var next := match updates[0]
        case SetNameTo(n) => SetName(u, n)
        case SetMailTo(m) => SetMail(u, m);
      ApplySnoc(next, updates[1..], last);
    }
  }

  /** From a new record: the account never changes, and name and mail are
      unset until set, then the latest value set. */
  lemma NewRecordGetters(account: string, updates: seq<Update>)
    ensures Apply(New(account), updates).account == account
    ensures Apply(New(account), updates).name == LatestName(updates, None)
    ensures Apply(New(account), updates).mail == LatestMail(updates, None)
  {
    GettersReturnLatest(New(account), updates);
  }
}

=== FILE: wrappers.dfy ===
/** Optional values: the model's stand-in for a Java reference that may be null. */
module Wrappers {

  datatype Option<+T> = None | Some(value: T)
}
